=== FILE: README.md ===
# Orcheo chat page, modelled in Dafny

This project models the chat page of the Orcheo WeChat mini-program
(`miniprogram/pages/chat/chat.ts`). The page keeps a conversation with a
ChatKit backend. It has two cooperating parts.

- **The reply decoder** (`parseSSEResponse`, `extractResponseFromObject`)
  reduces a reply body to a thread id and the assistant's text.
  - A string body is read line by line as a simplified Server-Sent-Events
    stream: split on `"\n"`, only the literal `data: ` prefix, one JSON
    payload per line, each inside a try/catch.
  - An object body takes its thread id from `thread_id`, overridden by
    `thread.id`, and its text from a first-match chain of seven candidates.
- **The conversation state** (`messages`, `inputValue`, `isLoading`,
  `threadId`) is changed by the page methods: appending messages, filling
  the trailing assistant placeholder, applying a reply or an error, sending
  with its guard, and clearing.

Modules:

- `JsValues` (js_values.dfy): parsed JSON values and the JavaScript
  operations the page applies to them: `?.` access, `[0]`, truthiness and
  `String()` coercion.
- `Text` (text.dfy): `split("\n")` with its inverse, `trim()`, and
  concatenation.
- `ResponseDecoder` (response_decoder.dfy):
  - the decoder as specification functions (a left fold over lines, a
    first-match over candidates);
  - the lemmas about them;
  - the loops of the source as methods proved equal to those functions.
- `Conversation` (conversation.dfy): `buildChatKitPayload` and the class
  `ChatPage` with the page's state and methods.
- `Scenarios` (scenarios.dfy): worked exchanges, including a two-turn
  conversation driven through `ChatPage`.

JavaScript semantics are written out where they matter.

- `undefined` is `None`.
- Empty strings, `0`, `false` and `null` are falsy.
- `output`, `response` and `text` are taken without a `typeof` check;
  `message` and `content` only when they are strings.
- Reading a property of `null` raises a TypeError, and so does `for…of`
  over a value that is not iterable. Such a path is an `Outcome.Threw`.
  - In the stream path the enclosing `catch` keeps the text appended before
    the raise.
  - In the object path nothing catches it: `handleApiResponse` stops before
    any `setData`. The page then keeps `isLoading` set and ignores every
    later send. `ChatPage.HandleApiResponse` leaves the state unchanged in
    that case, and `Scenarios.UncaughtTypeErrorKeepsLoading` exhibits it.

## Model

All source paths are in `miniprogram/pages/chat/chat.ts`.

| member | source | states |
|---|---|---|
| JsValues.NatToDecimal | miniprogram/pages/chat/chat.ts:249 | `String(n)` for a natural number below 2^53 is a non-empty run of decimal digits without a leading zero |
| JsValues.NatToDecimalValue | miniprogram/pages/chat/chat.ts:249 | for a natural number below 2^53, the digits `String(n)` produces denote `n` |
| JsValues.Get | miniprogram/pages/chat/chat.ts:239 | `v?.key` is defined exactly when `v` is an object that has the key, and then it is that field's value |
| Text.SplitLines | miniprogram/pages/chat/chat.ts:232 | `split("\n")` gives at least one piece, no piece holds a line feed, and joining the pieces with line feeds gives the input back |
| Text.SplitAfterLine | miniprogram/pages/chat/chat.ts:232 | a line, a line feed and more text split into that line followed by the pieces of the rest |
| Text.SplitSingleLine | miniprogram/pages/chat/chat.ts:232 | text without a line feed is a single piece |
| Text.SplitJoin | miniprogram/pages/chat/chat.ts:232 | splitting the join of pieces without line feeds gives the same pieces back |
| Text.TrimStartProperties | miniprogram/pages/chat/chat.ts:103 | removing leading whitespace leaves a suffix of the input that does not start with whitespace, and everything removed was whitespace |
| Text.TrimEndProperties | miniprogram/pages/chat/chat.ts:103 | removing trailing whitespace leaves a prefix of the input that does not end with whitespace, and everything removed was whitespace |
| Text.TrimProperties | miniprogram/pages/chat/chat.ts:103 | `trim()` yields a contiguous part of the input with no whitespace at either end; it is empty exactly when the input is all whitespace |
| ResponseDecoder.ScanBlocksThrewStays | miniprogram/pages/chat/chat.ts:247-251 | once the block loop has raised, later blocks change nothing |
| ResponseDecoder.ScanBlocksComplete | miniprogram/pages/chat/chat.ts:247-251 | without a null block the loop completes, and its text is the in-order concatenation of the `output_text` texts |
| ResponseDecoder.ScanBlocksStopsAtNull | miniprogram/pages/chat/chat.ts:247-251 | the first null block raises, and the text appended before it is kept |
| ResponseDecoder.CollectOutputText | miniprogram/pages/chat/chat.ts:247-251 | the loop over `content` returns the text and the TypeError flag of the block-scan specification: strings add nothing, arrays scan their blocks, other values raise |
| ResponseDecoder.FoldAppend | miniprogram/pages/chat/chat.ts:233-267 | applying the effects of `a + b` is applying those of `b` to the state left by those of `a` |
| ResponseDecoder.LineEffectsAppend | miniprogram/pages/chat/chat.ts:233-267 | the effects of two runs of lines are the effects of each run, in order |
| ResponseDecoder.EventEffect | miniprogram/pages/chat/chat.ts:239-261 | only a `thread.created` event records an id, and it then adds no text; only `thread.item.done` and `thread.item.updated` events add text |
| ResponseDecoder.DecodeFromAppend | miniprogram/pages/chat/chat.ts:233-267 | decoding `a + b` is decoding `b` from where decoding `a` left off |
| ResponseDecoder.DecodeFromSnoc | miniprogram/pages/chat/chat.ts:233-267 | one more line applies exactly that line's effect |
| ResponseDecoder.LineRecordsCreatedThreadId | miniprogram/pages/chat/chat.ts:234-241 | a line records a thread id if and only if it is a `data: ` line whose payload parses to `thread.created` with a truthy `thread.id`; the id recorded is that one |
| ResponseDecoder.FoldText | miniprogram/pages/chat/chat.ts:249-259 | the text after a run of effects is the starting text followed by every effect's text, in order |
| ResponseDecoder.StreamTextIsConcatenation | miniprogram/pages/chat/chat.ts:231-267 | the decoded text is the starting text followed by every line's contribution, in line order |
| ResponseDecoder.FoldIdKept | miniprogram/pages/chat/chat.ts:239-241 | effects that record no id leave the thread id as it was |
| ResponseDecoder.StreamThreadIdKept | miniprogram/pages/chat/chat.ts:233-241 | lines that record no thread id leave the thread id as it was |
| ResponseDecoder.StreamThreadIdIsLastCreated | miniprogram/pages/chat/chat.ts:233-241 | when line `k` records an id and no later line does, the decoded thread id is line `k`'s id: a later `thread.created` overrides an earlier one |
| ResponseDecoder.SkippedLineIsInert | miniprogram/pages/chat/chat.ts:234-265 | a line without the `data: ` prefix, or whose payload does not parse, changes neither output, and decoding continues with the next line |
| ResponseDecoder.StreamTextOnlyGrows | miniprogram/pages/chat/chat.ts:249-259 | more lines only extend the decoded text: it is never replaced |
| ResponseDecoder.AssistantItemText | miniprogram/pages/chat/chat.ts:243-253 | a `thread.item.done` event for an `assistant_message` whose blocks are not null contributes the concatenation of its blocks' `output_text` texts |
| ResponseDecoder.AssistantItemTextUpToNull | miniprogram/pages/chat/chat.ts:243-265 | with a null block the event contributes the texts of the blocks before it, and the catch keeps that partial text |
| ResponseDecoder.Candidates | miniprogram/pages/chat/chat.ts:285-305 | an object body has exactly seven candidate texts, in the order the code tries them |
| ResponseDecoder.FirstMatchSeven | miniprogram/pages/chat/chat.ts:283-307 | trying the seven candidates in order is a chain of seven "this one, or else the rest" steps ending in `''` |
| ResponseDecoder.FirstMatchPicks | miniprogram/pages/chat/chat.ts:283-307 | when every earlier candidate fails, candidate `k`'s text or TypeError is the outcome |
| ResponseDecoder.FirstMatchNone | miniprogram/pages/chat/chat.ts:307 | when no candidate matches, the text is `''` |
| ResponseDecoder.FirstMatchSource | miniprogram/pages/chat/chat.ts:283-307 | an outcome comes from the first candidate that matches or raises, or is `''` when none does |
| ResponseDecoder.ExtractTextThrows | miniprogram/pages/chat/chat.ts:283-300 | the object path raises if and only if the body is null, or the five plain fields all fail and the loop over a truthy `item.content` raises |
| ResponseDecoder.ItemOutputText | miniprogram/pages/chat/chat.ts:292-300 | the `item.content` branch yields the loop's text when it is non-empty, nothing when it is empty or `item.content` is falsy, and the TypeError when the loop raises |
| ResponseDecoder.ObjectThreadId | miniprogram/pages/chat/chat.ts:270-275 | a truthy `thread.id` gives the id whatever `thread_id` holds; otherwise a truthy `thread_id` gives it; a non-empty id always comes from one of the two |
| ResponseDecoder.DecodeBodyRaises | miniprogram/pages/chat/chat.ts:226-280 | decoding raises exactly for a null body or an object path that raises; a string body never raises |
| ResponseDecoder.ExtractResponseFromObject | miniprogram/pages/chat/chat.ts:283-308 | the if/return chain computes the first-match outcome over the seven candidates |
| ResponseDecoder.ReadLine | miniprogram/pages/chat/chat.ts:234-265 | one pass of the line loop applies exactly that line's effect: an id from `thread.created`, text appended from the two text events, nothing for any other line |
| ResponseDecoder.ParseSSEResponse | miniprogram/pages/chat/chat.ts:226-280 | the line loop and the object path compute the body's decode: the stream fold for a string, a TypeError for null, `('', '')` for numbers and booleans, and otherwise the object thread id with the first-match text |
| Conversation.UserInput | miniprogram/pages/chat/chat.ts:123-133 | the input carries one `input_text` block with the message, empty `attachments`, `quoted_text: null` and empty `inference_options` |
| Conversation.BuildChatKitPayload | miniprogram/pages/chat/chat.ts:121-162 | the request has exactly the top-level fields `type`, `params`, `metadata` and `workflow_id`, with or without a thread |
| Conversation.PayloadCarriesInput | miniprogram/pages/chat/chat.ts:121-162 | both payload shapes carry the user's input, `workflow_id`, and the workflow id and name in `metadata` |
| Conversation.PayloadTargetsThread | miniprogram/pages/chat/chat.ts:121-162 | the type is `threads.add_user_message` with `params.thread_id` equal to the thread id exactly when the id is non-empty, and `threads.create` with no `thread_id` otherwise |
| Conversation.ErrorText | miniprogram/pages/chat/chat.ts:217-218 | a falsy `detail.message` shows the generic error text; a non-empty string `detail.message` is shown as it is |
| Conversation.UpdatedLast | miniprogram/pages/chat/chat.ts:72-82 | the length and every message but the last are unchanged; an empty log or one ending with a user message is unchanged; otherwise the last message keeps its id, role and timestamp and gets the new content |
| Conversation.ChatPage.constructor | miniprogram/pages/chat/chat.ts:18-29 | the page starts with no messages, no input, no thread and not loading |
| Conversation.ChatPage.AddMessage | miniprogram/pages/chat/chat.ts:54-69 | the log grows by exactly the returned message, with the given role and content, and nothing else changes |
| Conversation.ChatPage.UpdateLastAssistantMessage | miniprogram/pages/chat/chat.ts:72-82 | the log becomes its trailing-assistant update, and nothing else changes |
| Conversation.ChatPage.SendToOrcheo | miniprogram/pages/chat/chat.ts:166-175 | the request is the payload for the current thread, and an empty assistant placeholder is appended |
| Conversation.ChatPage.OnSendMessage | miniprogram/pages/chat/chat.ts:102-118 | blank input or a pending reply changes nothing and sends nothing; otherwise the trimmed text and a placeholder are appended, the input is cleared, loading is set, and the payload for the current thread is sent |
| Conversation.ChatPage.HandleApiResponse | miniprogram/pages/chat/chat.ts:198-223 | on status 200 with a truthy body, a non-empty decoded id becomes the thread and the decoded text (or the no-response text) fills the placeholder; otherwise the thread is kept and `detail.message` or the generic error is shown; loading is cleared unless decoding raised, which changes nothing |
| Conversation.ChatPage.OnRequestFail | miniprogram/pages/chat/chat.ts:189-193 | a failed request shows the fixed error text and clears loading |
| Conversation.ChatPage.ClearChat | miniprogram/pages/chat/chat.ts:316-329 | a confirmation empties the log and resets the thread together; a refusal changes nothing |
| Scenarios.DataLineEffect | miniprogram/pages/chat/chat.ts:234-236 | a `data: ` line's effect is that of its parsed payload, and nothing when the payload does not parse |
| Scenarios.ThreadCreatedEffect | miniprogram/pages/chat/chat.ts:239-241 | a `thread.created` event records its id exactly when the id is non-empty |
| Scenarios.AssistantDoneEffect | miniprogram/pages/chat/chat.ts:244-253 | a finished assistant message with one `output_text` block contributes that block's text |
| Scenarios.PartAddedEffect | miniprogram/pages/chat/chat.ts:256-261 | a `content_part_added` update contributes its part's text |
| Scenarios.SplitBlankLineSeparated | miniprogram/pages/chat/chat.ts:232 | two lines, each ended by a blank line, split into five pieces |
| Scenarios.DecodeBlankLineSeparated | miniprogram/pages/chat/chat.ts:233-267 | blank lines contribute nothing: such a stream decodes as its two lines' effects in turn |
| Scenarios.CreatedThenDoneStream | miniprogram/pages/chat/chat.ts:226-267 | a `thread.created` line then a finished assistant message decode to that thread id and that text |
| Scenarios.MalformedLineSkipped | miniprogram/pages/chat/chat.ts:262-265 | a payload that does not parse is skipped and the next line still counts |
| Scenarios.PartThenDoneRepeatsText | miniprogram/pages/chat/chat.ts:243-261 | a streamed part followed by the finished message with the same text yields the text twice |
| Scenarios.ChoicesFallback | miniprogram/pages/chat/chat.ts:303-305 | an OpenAI-style body yields `choices[0].message.content` |
| Scenarios.ErrorDetailShown | miniprogram/pages/chat/chat.ts:218 | an error body's non-empty `detail.message` is the text shown |
| Scenarios.TrimWord | miniprogram/pages/chat/chat.ts:103 | a non-empty word without whitespace is its own trim |
| Scenarios.SendFirst | miniprogram/pages/chat/chat.ts:102-118 | the first send on a new page names no thread, logs the message and an empty placeholder, and leaves the page loading |
| Scenarios.FirstTurn | miniprogram/pages/chat/chat.ts:102-223 | a first send followed by a reply that decodes to a thread and a text records that thread, fills the placeholder with that text and clears loading |
| Scenarios.TwoTurnConversation | miniprogram/pages/chat/chat.ts:102-223 | the first send creates a thread; a reply decoding to thread `id` and text `text` shows `text`; the second send adds to thread `id` |
| Scenarios.NonIterableItemContentThrows | miniprogram/pages/chat/chat.ts:292-294 | a body whose `item.content` is a number raises in the object path |
| Scenarios.UncaughtTypeErrorKeepsLoading | miniprogram/pages/chat/chat.ts:198-223 | an object reply whose decoding raises leaves the placeholder empty and the page loading, so the next send is ignored |
| Scenarios.ClearedChatStartsNewThread | miniprogram/pages/chat/chat.ts:316-329 | after a confirmed clear the next send is `threads.create` and the log holds only the new exchange |

## Left out

- `wx.request`, `wx.showModal`, `wx.getSystemInfoSync` and `wx.getMenuButtonBoundingClientRect` are platform I/O and UI.
  - `ChatPage.SendToOrcheo` returns the payload instead of sending it.
  - The `success` and `fail` callbacks are the calls `ChatPage.HandleApiResponse` and `ChatPage.OnRequestFail`.
  - `ChatPage.ClearChat` takes the dialog's answer as a parameter.
- These are layout and keyboard glue, not modelled: `lifetimes.attached`, `onMessagesAreaTap`, `onKeyboardHeightChange`, `onConfirm`, `scrollToView`, `inputFocus`, `keyboardHeight`, `statusBarHeight`, `headerRightPadding` and the unused `assistantMessage`.
- `onInputChange` only sets `inputValue`; the model assigns the field directly.
- `generateId` and `Date.now()` are nondeterministic. Message ids and timestamps are method parameters.
- `JSON.parse` is a foreign call. It is the parameter `parse`, which returns `None` where `JSON.parse` raises; JSON syntax is not modelled.
- JSON numbers are integers only: fractions and exponents, and their `String()` forms, are not modelled.
- JsValues.NatToDecimal: prints every digit of any natural number, which matches JavaScript's `String(n)` only below 2^53. Numbers are IEEE doubles there: above 2^53 JavaScript prints the shortest digits that round back to the same double (`String(2**60)` is `"1152921504606847000"`), and from 10^21 it switches to exponent form (`"1e+21"`). Double precision is not modelled.
- JsValues.NatToDecimalValue: the digits denote `n` for every natural number in the model, but JavaScript's output denotes `n` only below 2^53, for the reason above.
- Values the code stores without conversion are stored as their `String()` form. This covers a non-string `thread.id`, `thread_id`, `output`, `response`, `text`, `choices[0].message.content` or `detail.message`.
  - A truthy value whose string form is empty, such as `[]` or `[null]`, is stored as `''`; the code stores the array.
    - As a reply text it then counts as no response, so the no-response text is shown.
    - As a `detail.message` it is shown as `''`, not as the generic error text.
    - As a thread id it counts as no thread id. In an object body it still overrides `thread_id`, so the body yields `''`. The page then keeps its previous thread, and the next request is `threads.create` when there was none. The code stores the array, and the next request is `threads.add_user_message` with the array in `params.thread_id`.
  - A non-string thread id whose string form is non-empty, such as the number `5` or an object, is kept by the code as it is and sent back as it is in `params.thread_id`. The model keeps its string form (`"5"`, `"[object Object]"`) and sends that string.
- The key order of the request payload is not modelled: objects are maps.
- `console.log` and `console.error` are diagnostics and are left out.
- `baseUrl`, `domainKey` and the request headers are configuration of the left-out request.
- `updateLastAssistantMessage` writes into the message object that the previous log shares with the copied array. Each log is a value here, so that aliasing is not modelled.

=== FILE: conversation.dfy ===
/** The conversation state of the chat page: the message log, the active
    thread id and the loading flag, and the page methods that change them.
    Message ids and timestamps come from `Date.now()` and `Math.random()` in
    the page; here they are parameters. */
module Conversation {
  import opened JsValues
  import opened Text
  import opened ResponseDecoder

  datatype Role = User | Assistant

  datatype Message = Message(id: string, role: Role, content: string, timestamp: int)

  /** `API_CONFIG.workflowId` and `API_CONFIG.workflowName`. */
  const WorkflowId: string := "5a573dd0-69dc-4cc9-94eb-78a1166dd4cc"
  const WorkflowName: string := "Orcheo Bot"

  /** Texts written into the trailing assistant message. */
  const NoResponseText: string := "I received your message but couldn't generate a response."
  const GenericErrorText: string := "Sorry, something went wrong. Please try again."
  const RequestFailedText: string := "Sorry, I encountered an error. Please try again."

  /** The ChatKit `input` object carrying the user's text. */
  function UserInput(userMessage: string): (input: Json)
    ensures Get(Some(input), "content") == Some(Arr([Obj(map["type" := Str("input_text"), "text" := Str(userMessage)])]))
    ensures Get(Some(input), "attachments") == Some(Arr([]))
    ensures Get(Some(input), "quoted_text") == Some(Null)
    ensures Get(Some(input), "inference_options") == Some(Obj(map[]))
  {
    Obj(map[
      "content" := Arr([Obj(map["type" := Str("input_text"), "text" := Str(userMessage)])]),
      "attachments" := Arr([]),
      "quoted_text" := Null,
      "inference_options" := Obj(map[])])
  }

  /** `buildChatKitPayload`: a request that adds the message to the active
      thread when there is one, and creates a thread otherwise. */
  function BuildChatKitPayload(threadId: string, userMessage: string): (r: Json)
    ensures r.Obj? && r.fields.Keys == {"type", "params", "metadata", "workflow_id"}
  {
    var metadata := Obj(map["workflow_id" := Str(WorkflowId), "workflow_name" := Str(WorkflowName)]);
    if threadId != "" then
      Obj(map[
        "type" := Str("threads.add_user_message"),
        "params" := Obj(map["thread_id" := Str(threadId), "input" := UserInput(userMessage)]),
        "metadata" := metadata,
        "workflow_id" := Str(WorkflowId)])
    else
      Obj(map[
        "type" := Str("threads.create"),
        "params" := Obj(map["input" := UserInput(userMessage)]),
        "metadata" := metadata,
        "workflow_id" := Str(WorkflowId)])
  }

  /** Both payload shapes carry the user's input and the workflow
      identification. */
  lemma PayloadCarriesInput(threadId: string, userMessage: string)
    ensures var p := Some(BuildChatKitPayload(threadId, userMessage));
      Get(Get(p, "params"), "input") == Some(UserInput(userMessage)) &&
      Get(p, "workflow_id") == Some(Str(WorkflowId)) &&
      Get(Get(p, "metadata"), "workflow_id") == Some(Str(WorkflowId)) &&
      Get(Get(p, "metadata"), "workflow_name") == Some(Str(WorkflowName))
  {
    var metadata := Obj(map["workflow_id" := Str(WorkflowId), "workflow_name" := Str(WorkflowName)]);
    assert Get(Some(metadata), "workflow_id") == Some(Str(WorkflowId));
    assert Get(Some(metadata), "workflow_name") == Some(Str(WorkflowName));
  }

  /** With an active thread the payload adds the message to that thread;
      without one it creates a thread and names none. */
  lemma PayloadTargetsThread(threadId: string, userMessage: string)
    ensures var p := Some(BuildChatKitPayload(threadId, userMessage));
      Get(p, "type") == Some(Str(if threadId != "" then "threads.add_user_message" else "threads.create")) &&
      Get(Get(p, "params"), "thread_id") == (if threadId != "" then Some(Str(threadId)) else None)
  {
  }

  /** The log after `updateLastAssistantMessage(content)`: only the content
      of a trailing assistant message changes; an empty log or one ending
      with a user message is left as it is. */
  function UpdatedLast(messages: seq<Message>, content: string): (r: seq<Message>)
    ensures |r| == |messages|
    ensures forall i :: 0 <= i < |messages| - 1 ==> r[i] == messages[i]
    ensures (messages == [] || messages[|messages| - 1].role != Assistant) ==> r == messages
    ensures messages != [] && messages[|messages| - 1].role == Assistant ==>
      r[|r| - 1].id == messages[|messages| - 1].id &&
      r[|r| - 1].role == Assistant &&
      r[|r| - 1].timestamp == messages[|messages| - 1].timestamp &&
      r[|r| - 1].content == content
  {
    if messages != [] && messages[|messages| - 1].role == Assistant
    then messages[|messages| - 1 := messages[|messages| - 1].(content := content)]
    else messages
  }

  /** `errorData?.detail?.message || 'Sorry, something went wrong…'` */
  function ErrorText(data: Json): (r: string)
    ensures var message := Get(Get(Some(data), "detail"), "message");
      !Truthy(message) ==> r == GenericErrorText
    ensures var message := Get(Get(Some(data), "detail"), "message");
      Truthy(message) && message.value.Str? ==> r == message.value.s
  {
    var detail := Get(Get(Some(data), "detail"), "message");
    if Truthy(detail) then ToString(detail.value) else GenericErrorText
  }

  /** The chat page component's conversation state. */
  class ChatPage {
    var messages: seq<Message>
    var inputValue: string
    var isLoading: bool
    var threadId: string

    /** The component's initial `data`. */
    constructor ()
      ensures messages == [] && inputValue == "" && !isLoading && threadId == ""
    {
      messages := [];
      inputValue := "";
      isLoading := false;
      threadId := "";
    }

    /** `addMessage`: appends a message and returns it. */
    method AddMessage(role: Role, content: string, id: string, timestamp: int) returns (m: Message)
      modifies this
      ensures m == Message(id, role, content, timestamp)
      ensures messages == old(messages) + [m]
      ensures inputValue == old(inputValue) && isLoading == old(isLoading) && threadId == old(threadId)
    {
      m := Message(id, role, content, timestamp);
      messages := messages + [m];
    }

    /** `updateLastAssistantMessage`: rewrites the trailing assistant message
        in place, or does nothing. */
    method UpdateLastAssistantMessage(content: string)
      modifies this
      ensures messages == UpdatedLast(old(messages), content)
      ensures inputValue == old(inputValue) && isLoading == old(isLoading) && threadId == old(threadId)
    {
      var lastIndex := |messages| - 1;
      if lastIndex >= 0 && messages[lastIndex].role == Assistant {
        messages := messages[lastIndex := messages[lastIndex].(content := content)];
      }
    }

    /** `sendToOrcheo` up to the request: builds the payload from the current
        thread id and appends an empty assistant placeholder. The request
        itself is returned instead of being sent. */
    method SendToOrcheo(userMessage: string, placeholderId: string, placeholderTimestamp: int)
      returns (payload: Json)
      modifies this
      ensures payload == BuildChatKitPayload(old(threadId), userMessage)
      ensures messages == old(messages) + [Message(placeholderId, Assistant, "", placeholderTimestamp)]
      ensures inputValue == old(inputValue) && isLoading == old(isLoading) && threadId == old(threadId)
    {
      payload := BuildChatKitPayload(threadId, userMessage);
      var placeholder := AddMessage(Assistant, "", placeholderId, placeholderTimestamp);
    }

    /** `onSendMessage`: ignored while a reply is pending or when the trimmed
        input is empty; otherwise appends the user message, clears the input,
        sets the loading flag and sends. */
    method OnSendMessage(userId: string, userTimestamp: int, placeholderId: string, placeholderTimestamp: int)
      returns (request: Option<Json>)
      modifies this
      ensures (Trim(old(inputValue)) == "" || old(isLoading)) ==>
        request == None && messages == old(messages) && inputValue == old(inputValue) &&
        isLoading == old(isLoading) && threadId == old(threadId)
      ensures Trim(old(inputValue)) != "" && !old(isLoading) ==>
        request == Some(BuildChatKitPayload(old(threadId), Trim(old(inputValue)))) &&
        messages == old(messages) + [Message(userId, User, Trim(old(inputValue)), userTimestamp),
                                     Message(placeholderId, Assistant, "", placeholderTimestamp)] &&
        inputValue == "" && isLoading && threadId == old(threadId)
    {
      var content := Trim(inputValue);
      if content == "" || isLoading {
        return None;
      }
      ghost var before := messages;
      var sent := AddMessage(User, content, userId, userTimestamp);
      inputValue := "";
      isLoading := true;
      var payload := SendToOrcheo(content, placeholderId, placeholderTimestamp);
      request := Some(payload);
      assert before + [sent] + [Message(placeholderId, Assistant, "", placeholderTimestamp)] ==
        before + [sent, Message(placeholderId, Assistant, "", placeholderTimestamp)];
    }

    /** `handleApiResponse`. On status 200 with a truthy body the decoded
        thread id (when non-empty) becomes the active one and the decoded
        text (or the "no response" text) fills the trailing assistant
        message; otherwise the thread is kept and an error text is shown.
        The loading flag is cleared, unless decoding raised: then the
        method stops before changing anything. */
    method HandleApiResponse(parse: string -> Option<Json>, statusCode: int, data: Json)
      modifies this
      ensures inputValue == old(inputValue)
      ensures statusCode == 200 && Truthy(Some(data)) && DecodeBody(parse, data).Threw? ==>
        messages == old(messages) && threadId == old(threadId) && isLoading == old(isLoading)
      ensures statusCode == 200 && Truthy(Some(data)) && DecodeBody(parse, data).Returned? ==>
        var d := DecodeBody(parse, data).value;
        threadId == (if d.threadId != "" then d.threadId else old(threadId)) &&
        messages == UpdatedLast(old(messages), if d.text != "" then d.text else NoResponseText) &&
        !isLoading
      ensures !(statusCode == 200 && Truthy(Some(data))) ==>
        threadId == old(threadId) && messages == UpdatedLast(old(messages), ErrorText(data)) &&
        !isLoading
    {
      if statusCode == 200 && Truthy(Some(data)) {
        var decoded := ParseSSEResponse(parse, data);
        if decoded.Threw? {
          // The TypeError escapes the success callback.
          return;
        }
        var d := decoded.value;
        if d.threadId != "" {
          threadId := d.threadId;
        }
        if d.text != "" {
          UpdateLastAssistantMessage(d.text);
        } else {
          UpdateLastAssistantMessage(NoResponseText);
        }
      } else {
        UpdateLastAssistantMessage(ErrorText(data));
      }
      isLoading := false;
    }

    /** The `fail` callback of the request. */
    method OnRequestFail()
      modifies this
      ensures messages == UpdatedLast(old(messages), RequestFailedText)
      ensures !isLoading && inputValue == old(inputValue) && threadId == old(threadId)
    {
      UpdateLastAssistantMessage(RequestFailedText);
      isLoading := false;
    }

    /** `clearChat` once the dialog has been answered: a confirmation resets
        the log and the thread together; otherwise nothing changes. */
    method ClearChat(confirmed: bool)
      modifies this
      ensures confirmed ==> messages == [] && threadId == ""
      ensures !confirmed ==> messages == old(messages) && threadId == old(threadId)
      ensures inputValue == old(inputValue) && isLoading == old(isLoading)
    {
      if confirmed {
        messages, threadId := [], "";
      }
    }
  }
}

=== FILE: js_values.dfy ===
/** JavaScript values as produced by `JSON.parse`, and the few JavaScript
    operations the chat page applies to them: optional-chaining property
    access, indexing with `[0]`, truthiness and string coercion. */
module JsValues {

  datatype Option<+T> = None | Some(value: T)

  /** A parsed JSON value. Numbers are restricted to integers. */
  datatype Json =
    | Null
    | Bool(b: bool)
    | Num(n: int)
    | Str(s: string)
    | Arr(elems: seq<Json>)
    | Obj(fields: map<string, Json>)

  /** The result of evaluating JavaScript code that may raise a TypeError. */
  datatype Outcome<+T> = Returned(value: T) | Threw

  /** `v?.key`, where `None` stands for `undefined`. Only parsed objects have
      own properties; for null, undefined and the other values every key the
      page looks up reads as `undefined`. */
  function Get(v: Option<Json>, key: string): (r: Option<Json>)
    ensures r.Some? <==> v.Some? && v.value.Obj? && key in v.value.fields
    ensures r.Some? ==> r.value == v.value.fields[key]
  {
    match v
    case Some(Obj(fields)) => if key in fields then Some(fields[key]) else None
    case _ => None
  }

  /** `v?.[0]`: the first element of an array, the first character of a
      string, or the property named "0" of an object. */
  function First(v: Option<Json>): Option<Json> {
    match v
    case Some(Arr(elems)) => if elems != [] then Some(elems[0]) else None
    case Some(Str(s)) => if s != [] then Some(Str([s[0]])) else None
    case Some(Obj(fields)) => if "0" in fields then Some(fields["0"]) else None
    case _ => None
  }

  /** JavaScript truthiness; `undefined`, null, false, 0 and "" are falsy. */
  predicate Truthy(v: Option<Json>) {
    match v
    case None => false
    case Some(Null) => false
    case Some(Bool(b)) => b
    case Some(Num(n)) => n != 0
    case Some(Str(s)) => s != ""
    case Some(Arr(_)) => true
    case Some(Obj(_)) => true
  }

  function DigitChar(d: nat): (c: char)
    requires d < 10
    ensures '0' <= c <= '9' && DigitValue(c) == d
  {
    "0123456789"[d]
  }

  /** The value of a decimal digit character. */
  function DigitValue(c: char): int {
    c as int - '0' as int
  }

  /** The number that a string of decimal digits denotes. */
  function DecimalValue(digits: string): int {
    if digits == [] then 0
    else DecimalValue(digits[..|digits| - 1]) * 10 + DigitValue(digits[|digits| - 1])
  }

  /** Decimal digits of a natural number, without leading zeros. */
  function NatToDecimal(n: nat): (r: string)
    ensures |r| >= 1
    ensures forall i :: 0 <= i < |r| ==> '0' <= r[i] <= '9'
    ensures |r| > 1 ==> r[0] != '0'
  {
    if n < 10 then [DigitChar(n)] else NatToDecimal(n / 10) + [DigitChar(n % 10)]
  }

  /** The digits of `n` denote `n`. */
  lemma {:induction false} NatToDecimalValue(n: nat)
    ensures DecimalValue(NatToDecimal(n)) == n
  {
    if n < 10 {
      assert [DigitChar(n)][..0] == [];
    } else {
      var digits := NatToDecimal(n);
      assert digits[..|digits| - 1] == NatToDecimal(n / 10);
      NatToDecimalValue(n / 10);
    }
  }

  /** `String(x)` for the integer `x`, written out in full: JavaScript agrees
      for magnitudes below 2^53. */
  function IntToDecimal(n: int): string {
    if n < 0 then "-" + NatToDecimal(-n) else NatToDecimal(n)
  }

  /** `Array.prototype.join(",")` over already converted elements. */
  function JoinWithCommas(parts: seq<string>): string {
    if |parts| == 0 then ""
    else if |parts| == 1 then parts[0]
    else parts[0] + "," + JoinWithCommas(parts[1..])
  }

  /** `String(v)`, the coercion that `s += v` applies when `s` is a string.
      Array elements that are null convert to the empty string. */
  function ToString(v: Json): string {
    match v
    case Null => "null"
    case Bool(b) => if b then "true" else "false"
    case Num(n) => IntToDecimal(n)
    case Str(s) => s
    case Obj(_) => "[object Object]"
    case Arr(elems) =>
      JoinWithCommas(seq(|elems|, i requires 0 <= i < |elems| =>
        if elems[i].Null? then "" else ToString(elems[i])))
  }
}

=== FILE: response_decoder.dfy ===
/** The reply decoder of the chat page: `parseSSEResponse` and
    `extractResponseFromObject`. A reply body is either a string, read as a
    simplified Server-Sent-Events stream, or an already parsed object. The
    decoder reduces it to a thread id and the assistant's text.

    `JSON.parse` is not modelled: it is the parameter `parse`, which yields
    `None` where `JSON.parse` raises. */
module ResponseDecoder {
  import opened JsValues
  import opened Text

  /** The only line prefix the stream reader recognises (six characters,
      the space included). */
  const DataPrefix: string := "data: "

  /** `line.startsWith('data: ')` */
  predicate HasDataPrefix(line: string) {
    |line| >= 6 && line[..6] == DataPrefix
  }

  /** What `parseSSEResponse` returns; "" stands for "no thread id". */
  datatype Decoded = Decoded(threadId: string, text: string)

  /** What one stream line contributes: a thread id to record (the last
      one recorded wins) and text to append. */
  datatype Effect = Effect(id: Option<string>, text: string)

  const NoEffect := Effect(None, "")

  // ---------------------------------------------------------------------
  // Content blocks: `for (const content of item.content)`
  // ---------------------------------------------------------------------

  /** The text one content block adds:
      `content.type === 'output_text' && content.text`. */
  function BlockText(block: Json): string {
    var text := Get(Some(block), "text");
    if Get(Some(block), "type") == Some(Str("output_text")) && Truthy(text)
    then ToString(text.value)
    else ""
  }

  /** The texts of every block, in block order. */
  function BlockTexts(blocks: seq<Json>): (r: seq<string>)
    ensures |r| == |blocks|
  {
    seq(|blocks|, i requires 0 <= i < |blocks| => BlockText(blocks[i]))
  }

  /** Where a loop over content blocks stands: the text it has appended and
      whether it raised. */
  datatype Scan = Scan(text: string, threw: bool)

  /** The loop over an array of blocks. Reading `.type` of a null block
      raises a TypeError, after the earlier blocks were already appended. */
  function ScanBlocks(blocks: seq<Json>): Scan
    decreases |blocks|
  {
    if blocks == [] then Scan("", false)
    else
      var before := ScanBlocks(blocks[..|blocks| - 1]);
      var last := blocks[|blocks| - 1];
      if before.threw then before
      else if last.Null? then Scan(before.text, true)
      else Scan(before.text + BlockText(last), false)
  }

  /** `for…of` over any value: a string iterates its characters (none of
      which has a `type`), an array its elements; anything else is not
      iterable and raises. */
  function ScanContent(content: Json): Scan {
    match content
    case Str(_) => Scan("", false)
    case Arr(blocks) => ScanBlocks(blocks)
    case _ => Scan("", true)
  }

  /** Once the loop has raised, later blocks are not visited. */
  lemma {:induction false} ScanBlocksThrewStays(blocks: seq<Json>, n: nat)
    requires n <= |blocks|
    requires ScanBlocks(blocks[..n]).threw
    ensures ScanBlocks(blocks) == ScanBlocks(blocks[..n])
    decreases |blocks|
  {
    if n < |blocks| {
      var shorter := blocks[..|blocks| - 1];
      assert shorter[..n] == blocks[..n];
      ScanBlocksThrewStays(shorter, n);
    } else {
      assert blocks[..n] == blocks;
    }
  }

  /** Without a null block the loop completes and appends every block's
      text, in order. */
  lemma {:induction false} ScanBlocksComplete(blocks: seq<Json>)
    requires forall i :: 0 <= i < |blocks| ==> !blocks[i].Null?
    ensures ScanBlocks(blocks) == Scan(Concat(BlockTexts(blocks)), false)
    decreases |blocks|
  {
    if blocks != [] {
      var shorter := blocks[..|blocks| - 1];
      var last := blocks[|blocks| - 1];
      ScanBlocksComplete(shorter);
      assert BlockTexts(blocks) == BlockTexts(shorter) + [BlockText(last)];
      ConcatSnoc(BlockTexts(shorter), BlockText(last));
    }
  }

  /** At the first null block the loop raises, keeping the text of the
      blocks before it. */
  lemma {:induction false} ScanBlocksStopsAtNull(blocks: seq<Json>, k: nat)
    requires k < |blocks| && blocks[k].Null?
    requires forall i :: 0 <= i < k ==> !blocks[i].Null?
    ensures ScanBlocks(blocks) == Scan(Concat(BlockTexts(blocks[..k])), true)
  {
    var upTo := blocks[..k + 1];
    assert upTo[..k] == blocks[..k];
    ScanBlocksComplete(blocks[..k]);
    ScanBlocksThrewStays(blocks, k + 1);
  }

  // ---------------------------------------------------------------------
  // The stream path of `parseSSEResponse`
  // ---------------------------------------------------------------------

  /** What one successfully parsed `data:` payload contributes, dispatched
      on its `type`. A payload of `null` raises at `eventData.type`; the
      enclosing catch then skips the line. */
  function EventEffect(event: Json): (r: Effect)
    ensures r.id.Some? ==> Get(Some(event), "type") == Some(Str("thread.created")) && r.text == ""
    ensures r.text != "" ==>
      Get(Some(event), "type") == Some(Str("thread.item.done")) ||
      Get(Some(event), "type") == Some(Str("thread.item.updated"))
  {
    if event.Null? then NoEffect
    else
      var kind := Get(Some(event), "type");
      if kind == Some(Str("thread.created")) then
        var id := Get(Get(Some(event), "thread"), "id");
        if Truthy(id) then Effect(Some(ToString(id.value)), "") else NoEffect
      else if kind == Some(Str("thread.item.done")) then
        var item := Get(Some(event), "item");
        var content := Get(item, "content");
        if Truthy(item) && Get(item, "type") == Some(Str("assistant_message")) && Truthy(content)
        then Effect(None, ScanContent(content.value).text)
        else NoEffect
      else if kind == Some(Str("thread.item.updated")) then
        var update := Get(Some(event), "update");
        var text := Get(Get(update, "part"), "text");
        if Truthy(update) && Get(update, "type") == Some(Str("content_part_added")) && Truthy(text)
        then Effect(None, ToString(text.value))
        else NoEffect
      else NoEffect
  }

  /** What one line of the stream contributes. Lines without the exact
      prefix, and payloads `JSON.parse` rejects, contribute nothing. */
  function LineEffect(parse: string -> Option<Json>, line: string): Effect {
    if HasDataPrefix(line) then
      match parse(line[6..])
      case None => NoEffect
      case Some(event) => EventEffect(event)
    else NoEffect
  }

  /** One line's effect on the decoder's locals: a recorded id replaces
      the thread id, and the text is appended. */
  function Apply(d: Decoded, e: Effect): Decoded {
    Decoded(if e.id.Some? then e.id.value else d.threadId, d.text + e.text)
  }

  /** Effects applied in order, starting from `init`. */
  function Fold(init: Decoded, effects: seq<Effect>): Decoded
    decreases |effects|
  {
    if effects == [] then init
    else Apply(Fold(init, effects[..|effects| - 1]), effects[|effects| - 1])
  }

  /** What every line contributes, in line order. */
  function LineEffects(parse: string -> Option<Json>, lines: seq<string>): (r: seq<Effect>)
    ensures |r| == |lines|
  {
    seq(|lines|, i requires 0 <= i < |lines| => LineEffect(parse, lines[i]))
  }

  /** The stream loop run over `lines`, starting from `init`. */
  function DecodeFrom(parse: string -> Option<Json>, init: Decoded, lines: seq<string>): Decoded {
    Fold(init, LineEffects(parse, lines))
  }

  /** `parseSSEResponse` on a string body. */
  function DecodeStream(parse: string -> Option<Json>, body: string): Decoded {
    DecodeFrom(parse, Decoded("", ""), SplitLines(body))
  }

  /** The texts of `effects`, in order. */
  function Texts(effects: seq<Effect>): (r: seq<string>)
    ensures |r| == |effects|
  {
    seq(|effects|, i requires 0 <= i < |effects| => effects[i].text)
  }

  /** The text each line contributes, in line order. */
  function LineTexts(parse: string -> Option<Json>, lines: seq<string>): seq<string> {
    Texts(LineEffects(parse, lines))
  }

  /** Folding `a + b` folds `b` from where folding `a` left off. */
  lemma {:induction false} FoldAppend(init: Decoded, a: seq<Effect>, b: seq<Effect>)
    ensures Fold(init, a + b) == Fold(Fold(init, a), b)
    decreases |b|
  {
    if b == [] {
      assert a + b == a;
    } else {
      var b' := b[..|b| - 1];
      assert (a + b)[..|a + b| - 1] == a + b';
      FoldAppend(init, a, b');
    }
  }

  /** The effects of two runs of lines are the effects of each, in order. */
  lemma LineEffectsAppend(parse: string -> Option<Json>, a: seq<string>, b: seq<string>)
    ensures LineEffects(parse, a + b) == LineEffects(parse, a) + LineEffects(parse, b)
  {
    var whole := LineEffects(parse, a + b);
    forall i | 0 <= i < |a + b|
      ensures whole[i] == (LineEffects(parse, a) + LineEffects(parse, b))[i]
    {
      if i < |a| {
        assert (a + b)[i] == a[i];
      } else {
        assert (a + b)[i] == b[i - |a|];
      }
    }
  }

  /** Decoding is a left fold: the lines after a split point continue from
      where the lines before it left off. */
  lemma DecodeFromAppend(parse: string -> Option<Json>, init: Decoded, a: seq<string>, b: seq<string>)
    ensures DecodeFrom(parse, init, a + b) == DecodeFrom(parse, DecodeFrom(parse, init, a), b)
  {
    LineEffectsAppend(parse, a, b);
    FoldAppend(init, LineEffects(parse, a), LineEffects(parse, b));
  }

  /** Decoding one more line applies that line's effect. */
  lemma DecodeFromSnoc(parse: string -> Option<Json>, init: Decoded, lines: seq<string>, line: string)
    ensures DecodeFrom(parse, init, lines + [line]) == Apply(DecodeFrom(parse, init, lines), LineEffect(parse, line))
  {
    var d := DecodeFrom(parse, init, lines);
    DecodeFromAppend(parse, init, lines, [line]);
    var single := LineEffects(parse, [line]);
    assert single == [LineEffect(parse, line)];
    assert single[..0] == [];
    assert Fold(d, single) == Apply(d, LineEffect(parse, line));
  }

  /** A line records a thread id exactly when it is a `data: ` line whose
      payload parses to a `thread.created` event with a truthy `thread.id`,
      and the id recorded is that one. */
  lemma LineRecordsCreatedThreadId(parse: string -> Option<Json>, line: string)
    ensures LineEffect(parse, line).id.Some? <==>
      HasDataPrefix(line) && parse(line[6..]).Some? &&
      Get(parse(line[6..]), "type") == Some(Str("thread.created")) &&
      Truthy(Get(Get(parse(line[6..]), "thread"), "id"))
    ensures LineEffect(parse, line).id.Some? ==>
      LineEffect(parse, line).id.value == ToString(Get(Get(parse(line[6..]), "thread"), "id").value)
  {
  }

  /** The folded text is the starting text followed by every effect's
      text, in order. */
  lemma {:induction false} FoldText(init: Decoded, effects: seq<Effect>)
    ensures Fold(init, effects).text == init.text + Concat(Texts(effects))
    decreases |effects|
  {
    if effects == [] {
      assert Texts(effects) == [];
    } else {
      var shorter := effects[..|effects| - 1];
      var last := effects[|effects| - 1].text;
      var before := Concat(Texts(shorter));
      FoldText(init, shorter);
      assert Texts(effects) == Texts(shorter) + [last];
      ConcatSnoc(Texts(shorter), last);
      assert (init.text + before) + last == init.text + (before + last);
    }
  }

  /** The decoded text is the in-order concatenation of what every line
      contributes, appended to the starting text: text is only ever
      appended, never replaced or reordered. */
  lemma StreamTextIsConcatenation(parse: string -> Option<Json>, init: Decoded, lines: seq<string>)
    ensures DecodeFrom(parse, init, lines).text == init.text + Concat(LineTexts(parse, lines))
  {
    FoldText(init, LineEffects(parse, lines));
  }

  /** Effects that record no id leave the thread id as it was. */
  lemma {:induction false} FoldIdKept(init: Decoded, effects: seq<Effect>)
    requires forall i :: 0 <= i < |effects| ==> effects[i].id.None?
    ensures Fold(init, effects).threadId == init.threadId
    decreases |effects|
  {
    if effects != [] {
      var shorter := effects[..|effects| - 1];
      assert forall i :: 0 <= i < |shorter| ==> shorter[i] == effects[i];
      FoldIdKept(init, shorter);
    }
  }

  /** Lines that record no thread id leave the thread id as it was. */
  lemma StreamThreadIdKept(parse: string -> Option<Json>, init: Decoded, lines: seq<string>)
    requires forall i :: 0 <= i < |lines| ==> LineEffect(parse, lines[i]).id.None?
    ensures DecodeFrom(parse, init, lines).threadId == init.threadId
  {
    FoldIdKept(init, LineEffects(parse, lines));
  }

  /** The decoded thread id is the one recorded by the last line that
      records one: later lines do not change it. */
  lemma StreamThreadIdIsLastCreated(parse: string -> Option<Json>, init: Decoded, lines: seq<string>, k: nat)
    requires k < |lines| && LineEffect(parse, lines[k]).id.Some?
    requires forall j :: k < j < |lines| ==> LineEffect(parse, lines[j]).id.None?
    ensures DecodeFrom(parse, init, lines).threadId == LineEffect(parse, lines[k]).id.value
  {
    var upTo, after := lines[..k + 1], lines[k + 1..];
    assert lines == upTo + after;
    DecodeFromAppend(parse, init, upTo, after);
    assert upTo == lines[..k] + [lines[k]];
    DecodeFromSnoc(parse, init, lines[..k], lines[k]);
    forall i | 0 <= i < |after|
      ensures LineEffect(parse, after[i]).id.None?
    {
      assert after[i] == lines[k + 1 + i];
    }
    StreamThreadIdKept(parse, DecodeFrom(parse, init, upTo), after);
  }

  /** A line without the `data: ` prefix, or whose payload does not parse,
      changes neither output, and decoding goes on with the next line. */
  lemma SkippedLineIsInert(parse: string -> Option<Json>, init: Decoded,
                           before: seq<string>, line: string, after: seq<string>)
    requires !HasDataPrefix(line) || parse(line[6..]).None?
    ensures DecodeFrom(parse, init, before + [line] + after) == DecodeFrom(parse, init, before + after)
  {
    var d := DecodeFrom(parse, init, before);
    DecodeFromAppend(parse, init, before + [line], after);
    DecodeFromSnoc(parse, init, before, line);
    DecodeFromAppend(parse, init, before, after);
    assert LineEffect(parse, line) == NoEffect;
    assert d.text + "" == d.text;
  }

  /** Decoding more lines only extends the text decoded so far. */
  lemma StreamTextOnlyGrows(parse: string -> Option<Json>, init: Decoded, lines: seq<string>, more: seq<string>)
    ensures DecodeFrom(parse, init, lines).text <= DecodeFrom(parse, init, lines + more).text
  {
    DecodeFromAppend(parse, init, lines, more);
    var mid := DecodeFrom(parse, init, lines);
    StreamTextIsConcatenation(parse, mid, more);
  }

  /** A `thread.item.done` event for an assistant message appends the
      `output_text` texts of all its blocks, in block order. */
  lemma AssistantItemText(event: Json, blocks: seq<Json>)
    requires Get(Some(event), "type") == Some(Str("thread.item.done"))
    requires Get(Get(Some(event), "item"), "type") == Some(Str("assistant_message"))
    requires Get(Get(Some(event), "item"), "content") == Some(Arr(blocks))
    requires forall i :: 0 <= i < |blocks| ==> !blocks[i].Null?
    ensures EventEffect(event) == Effect(None, Concat(BlockTexts(blocks)))
  {
    ScanBlocksComplete(blocks);
  }

  /** A null block ends the loop with a TypeError; the blocks before it have
      already been appended, and the catch keeps that partial text. */
  lemma AssistantItemTextUpToNull(event: Json, blocks: seq<Json>, k: nat)
    requires Get(Some(event), "type") == Some(Str("thread.item.done"))
    requires Get(Get(Some(event), "item"), "type") == Some(Str("assistant_message"))
    requires Get(Get(Some(event), "item"), "content") == Some(Arr(blocks))
    requires k < |blocks| && blocks[k].Null?
    requires forall i :: 0 <= i < k ==> !blocks[i].Null?
    ensures EventEffect(event) == Effect(None, Concat(BlockTexts(blocks[..k])))
  {
    ScanBlocksStopsAtNull(blocks, k);
  }

  // ---------------------------------------------------------------------
  // The object path: `extractResponseFromObject` and the thread id
  // ---------------------------------------------------------------------

  /** `if (x) return x;`, for the fields read without a type check. */
  function TruthyText(v: Option<Json>): Option<string> {
    if Truthy(v) then Some(ToString(v.value)) else None
  }

  /** `if (x && typeof x === 'string') return x;` */
  function NonEmptyString(v: Option<Json>): Option<string> {
    match v
    case Some(Str(s)) => if s != "" then Some(s) else None
    case _ => None
  }

  /** The ChatKit item form: the non-empty concatenation of the
      `output_text` blocks of `item.content`; the loop may raise. */
  function ItemCandidate(data: Json): Outcome<Option<string>> {
    var content := Get(Get(Some(data), "item"), "content");
    if !Truthy(content) then Returned(None)
    else
      var scan := ScanContent(content.value);
      if scan.threw then Threw
      else if scan.text != "" then Returned(Some(scan.text))
      else Returned(None)
  }

  /** The candidate texts of an object body, in the order they are tried. */
  function Candidates(data: Json): (r: seq<Outcome<Option<string>>>)
    ensures |r| == 7
  {
    [ Returned(TruthyText(Get(Some(data), "output"))),
      Returned(TruthyText(Get(Some(data), "response"))),
      Returned(NonEmptyString(Get(Some(data), "message"))),
      Returned(NonEmptyString(Get(Some(data), "content"))),
      Returned(TruthyText(Get(Some(data), "text"))),
      ItemCandidate(data),
      Returned(TruthyText(Get(Get(First(Get(Some(data), "choices")), "message"), "content"))) ]
  }

  /** One link of the chain: a candidate that matches or raises decides the
      outcome; one that does not match defers to the rest of the chain. */
  function OrElse(candidate: Outcome<Option<string>>, rest: Outcome<string>): Outcome<string> {
    match candidate
    case Threw => Threw
    case Returned(Some(t)) => Returned(t)
    case Returned(None) => rest
  }

  /** The first candidate that matches wins; a candidate that raises
      aborts; when none matches the text is empty. */
  function FirstMatch(candidates: seq<Outcome<Option<string>>>): Outcome<string> {
    if candidates == [] then Returned("") else OrElse(candidates[0], FirstMatch(candidates[1..]))
  }

  /** Seven candidates, tried in order, form a chain of seven links. */
  lemma FirstMatchSeven(c: seq<Outcome<Option<string>>>)
    requires |c| == 7
    ensures FirstMatch(c) ==
      OrElse(c[0], OrElse(c[1], OrElse(c[2], OrElse(c[3], OrElse(c[4], OrElse(c[5], OrElse(c[6], Returned(""))))))))
  {
    assert FirstMatch(c[7..]) == Returned("");
    forall k | 0 <= k < 7
      ensures FirstMatch(c[k..]) == OrElse(c[k], FirstMatch(c[k + 1..]))
    {
      assert c[k..][1..] == c[k + 1..];
    }
  }

  /** `extractResponseFromObject(data)`; reading a field of null raises. */
  function ExtractText(data: Json): Outcome<string> {
    if data.Null? then Threw else FirstMatch(Candidates(data))
  }

  /** The thread id of an object body: a truthy `thread_id` is stored, then
      a truthy `thread.id` is stored over it. */
  function ObjectThreadId(data: Json): (r: string)
    ensures var nested := Get(Get(Some(data), "thread"), "id");
      Truthy(nested) ==> r == ToString(nested.value)
    ensures var flat, nested := Get(Some(data), "thread_id"), Get(Get(Some(data), "thread"), "id");
      !Truthy(nested) ==> r == (if Truthy(flat) then ToString(flat.value) else "")
    ensures r != "" ==> Truthy(Get(Some(data), "thread_id")) || Truthy(Get(Get(Some(data), "thread"), "id"))
  {
    var flat := Get(Some(data), "thread_id");
    var afterFlat := if Truthy(flat) then ToString(flat.value) else "";
    var nested := Get(Get(Some(data), "thread"), "id");
    if Truthy(nested) then ToString(nested.value) else afterFlat
  }

  /** `parseSSEResponse(data)` for any body: a string is a stream; null
      raises at `data.thread_id`; other objects and arrays take the object
      path; a number or boolean yields the empty result. */
  function DecodeBody(parse: string -> Option<Json>, data: Json): Outcome<Decoded> {
    match data
    case Str(body) => Returned(DecodeStream(parse, body))
    case Null => Threw
    case Bool(_) => Returned(Decoded("", ""))
    case Num(_) => Returned(Decoded("", ""))
    case _ =>
      match ExtractText(data)
      case Threw => Threw
      case Returned(text) => Returned(Decoded(ObjectThreadId(data), text))
  }

  /** Decoding raises only on a null body or an object path that raises:
      a string body is always decoded, whatever its lines hold. */
  lemma DecodeBodyRaises(parse: string -> Option<Json>, data: Json)
    ensures DecodeBody(parse, data).Threw? <==>
      data.Null? || ((data.Obj? || data.Arr?) && ExtractText(data).Threw?)
  {
  }

  /** Every candidate before `k` fails to match and candidate `k` matches
      or raises: the outcome is candidate `k`'s. */
  lemma {:induction false} FirstMatchPicks(candidates: seq<Outcome<Option<string>>>, k: nat)
    requires k < |candidates|
    requires forall j :: 0 <= j < k ==> candidates[j] == Returned(None)
    requires candidates[k] != Returned(None)
    ensures candidates[k].Threw? ==> FirstMatch(candidates) == Threw
    ensures candidates[k].Returned? ==> FirstMatch(candidates) == Returned(candidates[k].value.value)
  {
    if k > 0 {
      FirstMatchPicks(candidates[1..], k - 1);
    }
  }

  /** When no candidate matches or raises, the text is empty. */
  lemma {:induction false} FirstMatchNone(candidates: seq<Outcome<Option<string>>>)
    requires forall j :: 0 <= j < |candidates| ==> candidates[j] == Returned(None)
    ensures FirstMatch(candidates) == Returned("")
  {
    if candidates != [] {
      FirstMatchNone(candidates[1..]);
    }
  }

  /** Conversely, a result names the candidate it came from: the text is
      either empty with nothing matching, or some candidate's text with
      every earlier candidate failing to match. */
  lemma {:induction false} FirstMatchSource(candidates: seq<Outcome<Option<string>>>)
    ensures FirstMatch(candidates).Threw? ==>
      exists k :: 0 <= k < |candidates| && candidates[k].Threw? &&
        forall j :: 0 <= j < k ==> candidates[j] == Returned(None)
    ensures FirstMatch(candidates).Returned? ==>
      (forall j :: 0 <= j < |candidates| ==> candidates[j] == Returned(None)) ||
      exists k :: 0 <= k < |candidates| && candidates[k] == Returned(Some(FirstMatch(candidates).value)) &&
        forall j :: 0 <= j < k ==> candidates[j] == Returned(None)
  {
    if candidates != [] {
      var rest := candidates[1..];
      assert FirstMatch(candidates) == OrElse(candidates[0], FirstMatch(rest));
      if candidates[0] == Returned(None) {
        FirstMatchSource(rest);
        assert forall j :: 0 < j < |candidates| ==> candidates[j] == rest[j - 1];
        if FirstMatch(rest).Threw? {
          var k :| 0 <= k < |rest| && rest[k].Threw? && forall j :: 0 <= j < k ==> rest[j] == Returned(None);
          assert candidates[k + 1].Threw?;
          assert forall j :: 0 <= j < k + 1 ==> candidates[j] == Returned(None);
        } else if forall j :: 0 <= j < |rest| ==> rest[j] == Returned(None) {
          assert forall j :: 0 <= j < |candidates| ==> candidates[j] == Returned(None);
        } else {
          var k :| 0 <= k < |rest| && rest[k] == Returned(Some(FirstMatch(rest).value)) &&
            forall j :: 0 <= j < k ==> rest[j] == Returned(None);
          assert candidates[k + 1] == Returned(Some(FirstMatch(candidates).value));
          assert forall j :: 0 <= j < k + 1 ==> candidates[j] == Returned(None);
        }
      }
    }
  }

  /** The object path raises exactly when the body is null, or when none of
      the five plain fields matches and the loop over a truthy
      `item.content` raises (it is not iterable, or holds a null block). */
  lemma ExtractTextThrows(data: Json)
    ensures ExtractText(data).Threw? <==>
      data.Null? ||
      ((forall j :: 0 <= j < 5 ==> Candidates(data)[j] == Returned(None)) &&
       Truthy(Get(Get(Some(data), "item"), "content")) &&
       ScanContent(Get(Get(Some(data), "item"), "content").value).threw)
  {
    if !data.Null? {
      var c := Candidates(data);
      FirstMatchSource(c);
      if (forall j :: 0 <= j < 5 ==> c[j] == Returned(None)) && c[5].Threw? {
        FirstMatchPicks(c, 5);
      }
    }
  }

  // ---------------------------------------------------------------------
  // The code, step by step
  // ---------------------------------------------------------------------

  /** `for (const content of …) if (content.type === 'output_text' &&
      content.text) text += content.text;` with its TypeError made explicit:
      on `threw`, `text` holds what was appended before the loop raised. */
  method CollectOutputText(content: Json) returns (text: string, threw: bool)
    ensures Scan(text, threw) == ScanContent(content)
  {
    text, threw := "", false;
    match content {
      case Str(_) =>
        // Each character is a string without a `type`: nothing is appended.
      case Arr(blocks) =>
        var j := 0;
        while j < |blocks|
          invariant 0 <= j <= |blocks|
          invariant ScanBlocks(blocks[..j]) == Scan(text, false)
        {
          var block := blocks[j];
          assert blocks[..j + 1][..j] == blocks[..j];
          if block.Null? {
            threw := true;
            ScanBlocksThrewStays(blocks, j + 1);
            return;
          }
          var blockText := Get(Some(block), "text");
          if Get(Some(block), "type") == Some(Str("output_text")) && Truthy(blockText) {
            text := text + ToString(blockText.value);
          }
          j := j + 1;
        }
        assert blocks[..j] == blocks;
      case _ =>
        threw := true;
    }
  }

  /** The ChatKit item branch of `extractResponseFromObject`: the loop over
      a truthy `item.content`, whose text is returned when it is non-empty. */
  method ItemOutputText(data: Json) returns (r: Outcome<Option<string>>)
    ensures r == ItemCandidate(data)
  {
    var itemContent := Get(Get(Some(data), "item"), "content");
    if !Truthy(itemContent) {
      return Returned(None);
    }
    var text, threw := CollectOutputText(itemContent.value);
    if threw {
      return Threw;
    }
    return if text != "" then Returned(Some(text)) else Returned(None);
  }

  /** `extractResponseFromObject(data)` as written: an if/return chain. */
  method ExtractResponseFromObject(data: Json) returns (r: Outcome<string>)
    ensures r == ExtractText(data)
  {
    if data.Null? {
      return Threw;
    }
    var d := Some(data);
    FirstMatchSeven(Candidates(data));
    if Truthy(Get(d, "output")) {
      return Returned(ToString(Get(d, "output").value));
    }
    if Truthy(Get(d, "response")) {
      return Returned(ToString(Get(d, "response").value));
    }
    var message := Get(d, "message");
    if Truthy(message) && message.value.Str? {
      return Returned(message.value.s);
    }
    var content := Get(d, "content");
    if Truthy(content) && content.value.Str? {
      return Returned(content.value.s);
    }
    if Truthy(Get(d, "text")) {
      return Returned(ToString(Get(d, "text").value));
    }
    var item := ItemOutputText(data);
    if item != Returned(None) {
      return if item.Threw? then Threw else Returned(item.value.value);
    }
    var reply := Get(Get(First(Get(d, "choices")), "message"), "content");
    if Truthy(reply) {
      return Returned(ToString(reply.value));
    }
    return Returned("");
  }

  /** The body of the line loop of `parseSSEResponse`: a `data: ` payload is
      parsed inside a try/catch and dispatched on its type. A payload that
      does not parse, or parses to null (whose `.type` raises), is caught
      and skipped; a raise inside the block loop keeps what was already
      appended. */
  method ReadLine(parse: string -> Option<Json>, line: string, threadId: string, responseText: string)
    returns (newThreadId: string, newText: string)
    ensures Decoded(newThreadId, newText) == Apply(Decoded(threadId, responseText), LineEffect(parse, line))
  {
    newThreadId, newText := threadId, responseText;
    if !HasDataPrefix(line) || parse(line[6..]).None? || parse(line[6..]).value.Null? {
      assert newText + "" == newText;
      return;
    }
    var event := parse(line[6..]).value;
    var kind := Get(Some(event), "type");
    var id := Get(Get(Some(event), "thread"), "id");
    if kind == Some(Str("thread.created")) && Truthy(id) {
      newThreadId := ToString(id.value);
    }
    var item := Get(Some(event), "item");
    if kind == Some(Str("thread.item.done")) && Truthy(item) {
      var content := Get(item, "content");
      if Get(item, "type") == Some(Str("assistant_message")) && Truthy(content) {
        var text, threw := CollectOutputText(content.value);
        newText := newText + text;
      }
    }
    var update := Get(Some(event), "update");
    if kind == Some(Str("thread.item.updated")) && Truthy(update) {
      var partText := Get(Get(update, "part"), "text");
      if Get(update, "type") == Some(Str("content_part_added")) && Truthy(partText) {
        newText := newText + ToString(partText.value);
      }
    }
    assert newText == responseText + LineEffect(parse, line).text;
  }

  /** `parseSSEResponse(data)` as written: a loop over the lines of a string
      body that overwrites a local thread id and appends to a local text;
      or the object path. */
  method ParseSSEResponse(parse: string -> Option<Json>, data: Json) returns (r: Outcome<Decoded>)
    ensures r == DecodeBody(parse, data)
  {
    var threadId, responseText := "", "";
    if data.Str? {
      var lines := SplitLines(data.s);
      var i := 0;
      while i < |lines|
        invariant 0 <= i <= |lines|
        invariant DecodeFrom(parse, Decoded("", ""), lines[..i]) == Decoded(threadId, responseText)
      {
        assert lines[..i + 1] == lines[..i] + [lines[i]];
        DecodeFromSnoc(parse, Decoded("", ""), lines[..i], lines[i]);
        threadId, responseText := ReadLine(parse, lines[i], threadId, responseText);
        i := i + 1;
      }
      assert lines[..i] == lines;
      r := Returned(Decoded(threadId, responseText));
    } else if data.Null? {
      // `data.thread_id` raises on null.
      r := Threw;
    } else if data.Bool? || data.Num? {
      // Neither `typeof` branch applies.
      r := Returned(Decoded(threadId, responseText));
    } else {
      var flat := Get(Some(data), "thread_id");
      if Truthy(flat) {
        threadId := ToString(flat.value);
      }
      var nested := Get(Get(Some(data), "thread"), "id");
      if Truthy(nested) {
        threadId := ToString(nested.value);
      }
      var text := ExtractResponseFromObject(data);
      if text.Threw? {
        r := Threw;
      } else {
        r := Returned(Decoded(threadId, text.value));
      }
    }
  }
}

=== FILE: scenarios.dfy ===
/** Worked exchanges with the ChatKit backend: event payloads of the three
    recognised kinds, the replies they decode to, and a two-turn
    conversation driven through the page methods. `parse` is left open:
    each lemma only asks it to read the payload lines as the events shown. */
module Scenarios {
  import opened JsValues
  import opened Text
  import opened ResponseDecoder
  import opened Conversation

  /** `{"type":"thread.created","thread":{"id":id}}` */
  function ThreadCreated(id: string): Json {
    Obj(map["type" := Str("thread.created"), "thread" := Obj(map["id" := Str(id)])])
  }

  /** A finished assistant message with a single `output_text` block. */
  function AssistantDone(text: string): Json {
    Obj(map[
      "type" := Str("thread.item.done"),
      "item" := Obj(map[
        "type" := Str("assistant_message"),
        "content" := Arr([Obj(map["type" := Str("output_text"), "text" := Str(text)])])])])
  }

  /** A streamed `content_part_added` update carrying `text`. */
  function PartAdded(text: string): Json {
    Obj(map[
      "type" := Str("thread.item.updated"),
      "update" := Obj(map["type" := Str("content_part_added"), "part" := Obj(map["text" := Str(text)])])])
  }

  /** A `data: ` line whose payload is `payload`. */
  lemma DataLineEffect(parse: string -> Option<Json>, payload: string)
    ensures LineEffect(parse, DataPrefix + payload) ==
      (match parse(payload) case None => NoEffect case Some(event) => EventEffect(event))
  {
    var line := DataPrefix + payload;
    assert line[..6] == DataPrefix && line[6..] == payload;
  }

  /** A `thread.created` event records its id when the id is non-empty. */
  lemma ThreadCreatedEffect(id: string)
    ensures EventEffect(ThreadCreated(id)) == Effect(if id != "" then Some(id) else None, "")
  {
  }

  /** A finished assistant message contributes its text. */
  lemma AssistantDoneEffect(text: string)
    ensures EventEffect(AssistantDone(text)) == Effect(None, text)
  {
    var block := Obj(map["type" := Str("output_text"), "text" := Str(text)]);
    var event := AssistantDone(text);
    assert Get(Get(Some(event), "item"), "content") == Some(Arr([block]));
    AssistantItemText(event, [block]);
    assert BlockTexts([block]) == [text];
    assert Concat([text]) == text + "";
  }

  /** A content part addition contributes its text when it is non-empty. */
  lemma PartAddedEffect(text: string)
    ensures EventEffect(PartAdded(text)) == Effect(None, text)
  {
  }

  /** Two lines, each followed by a blank line, split into five pieces. */
  lemma SplitBlankLineSeparated(first: string, second: string)
    requires '\n' !in first && '\n' !in second
    ensures SplitLines(first + "\n\n" + second + "\n\n") == [first, "", second, "", ""]
  {
    assert first + "\n\n" + second + "\n\n" == first + "\n" + ("" + "\n" + (second + "\n" + ("" + "\n" + "")));
    SplitAfterLine("", "");
    SplitAfterLine(second, "" + "\n" + "");
    SplitAfterLine("", second + "\n" + ("" + "\n" + ""));
    SplitAfterLine(first, "" + "\n" + (second + "\n" + ("" + "\n" + "")));
  }

  /** Blank lines contribute nothing, so a stream of two payload lines each
      followed by a blank line decodes as the two effects applied in turn. */
  lemma DecodeBlankLineSeparated(parse: string -> Option<Json>, first: string, second: string)
    ensures DecodeFrom(parse, Decoded("", ""), [first, "", second, "", ""]) ==
      Apply(Apply(Decoded("", ""), LineEffect(parse, first)), LineEffect(parse, second))
  {
    var start := Decoded("", "");
    var d1 := Apply(start, LineEffect(parse, first));
    var d2 := Apply(d1, LineEffect(parse, second));
    assert LineEffect(parse, "") == NoEffect;
    assert d1.text + "" == d1.text && d2.text + "" == d2.text;
    DecodeFromSnoc(parse, start, [], first);
    DecodeFromSnoc(parse, start, [first], "");
    DecodeFromSnoc(parse, start, [first, ""], second);
    DecodeFromSnoc(parse, start, [first, "", second], "");
    DecodeFromSnoc(parse, start, [first, "", second, ""], "");
    assert [] + [first] == [first] && [first] + [""] == [first, ""];
    assert [first, ""] + [second] == [first, "", second];
    assert [first, "", second] + [""] == [first, "", second, ""];
    assert [first, "", second, ""] + [""] == [first, "", second, "", ""];
  }

  /** The reply of a first turn: a `thread.created` event for `id`, then the
      finished assistant message `text`, each followed by a blank line,
      decodes to that id and that text. */
  lemma CreatedThenDoneStream(parse: string -> Option<Json>, created: string, done: string, id: string, text: string)
    requires '\n' !in created && '\n' !in done
    requires id != ""
    requires parse(created) == Some(ThreadCreated(id))
    requires parse(done) == Some(AssistantDone(text))
    ensures DecodeStream(parse, DataPrefix + created + "\n\n" + DataPrefix + done + "\n\n") == Decoded(id, text)
  {
    var first, second := DataPrefix + created, DataPrefix + done;
    assert DataPrefix + created + "\n\n" + DataPrefix + done + "\n\n" == first + "\n\n" + second + "\n\n";
    SplitBlankLineSeparated(first, second);
    DecodeBlankLineSeparated(parse, first, second);
    DataLineEffect(parse, created);
    DataLineEffect(parse, done);
    ThreadCreatedEffect(id);
    AssistantDoneEffect(text);
    assert "" + text == text;
  }

  /** A payload line that does not parse is skipped and the next line is
      still decoded. */
  lemma MalformedLineSkipped(parse: string -> Option<Json>, bad: string, good: string, text: string)
    requires '\n' !in bad && '\n' !in good
    requires parse(bad).None?
    requires parse(good) == Some(PartAdded(text))
    ensures DecodeStream(parse, DataPrefix + bad + "\n" + DataPrefix + good) == Decoded("", text)
  {
    var first, second := DataPrefix + bad, DataPrefix + good;
    assert DataPrefix + bad + "\n" + DataPrefix + good == first + "\n" + second;
    SplitAfterLine(first, second);
    SplitSingleLine(second);
    DataLineEffect(parse, bad);
    DataLineEffect(parse, good);
    PartAddedEffect(text);
    var start := Decoded("", "");
    DecodeFromSnoc(parse, start, [], first);
    DecodeFromSnoc(parse, start, [first], second);
    assert DecodeFrom(parse, start, [first]) == start;
  }

  /** Streamed parts and the finished message are both appended: a part
      followed by the finished message carrying the same text yields that
      text twice. */
  lemma PartThenDoneRepeatsText(parse: string -> Option<Json>, part: string, done: string, text: string)
    requires '\n' !in part && '\n' !in done
    requires parse(part) == Some(PartAdded(text))
    requires parse(done) == Some(AssistantDone(text))
    ensures DecodeStream(parse, DataPrefix + part + "\n" + DataPrefix + done) == Decoded("", text + text)
  {
    var first, second := DataPrefix + part, DataPrefix + done;
    assert DataPrefix + part + "\n" + DataPrefix + done == first + "\n" + second;
    SplitAfterLine(first, second);
    SplitSingleLine(second);
    DataLineEffect(parse, part);
    DataLineEffect(parse, done);
    PartAddedEffect(text);
    AssistantDoneEffect(text);
    var start := Decoded("", "");
    DecodeFromSnoc(parse, start, [], first);
    DecodeFromSnoc(parse, start, [first], second);
    assert DecodeFrom(parse, start, [first]) == Decoded("", text);
  }

  /** An OpenAI-style object body falls through to `choices[0].message.content`. */
  lemma ChoicesFallback(parse: string -> Option<Json>, text: string)
    requires text != ""
    ensures DecodeBody(parse, Obj(map["choices" := Arr([Obj(map["message" := Obj(map["content" := Str(text)])])])]))
      == Returned(Decoded("", text))
  {
    var data := Obj(map["choices" := Arr([Obj(map["message" := Obj(map["content" := Str(text)])])])]);
    var c := Candidates(data);
    assert c[5] == Returned(None);
    FirstMatchPicks(c, 6);
  }

  /** An error body's `detail.message` is the text shown. */
  lemma ErrorDetailShown(message: string)
    requires message != ""
    ensures ErrorText(Obj(map["detail" := Obj(map["message" := Str(message)])])) == message
  {
  }

  /** A word without whitespace is its own trim. */
  lemma TrimWord(word: string)
    requires word != []
    requires forall i :: 0 <= i < |word| ==> !IsJsWhitespace(word[i])
    ensures Trim(word) == word
  {
    TrimProperties(word);
    var r := Trim(word);
    var k :| OccursAt(r, word, k);
    assert !IsJsWhitespace(word[0]);
  }

  /** A first send on a new page: no thread is named, the user message and
      an empty placeholder are logged, and the page waits for the reply. */
  method SendFirst(hello: string) returns (page: ChatPage, first: Option<Json>)
    requires hello != "" && Trim(hello) == hello
    ensures fresh(page)
    ensures first == Some(BuildChatKitPayload("", hello))
    ensures page.threadId == "" && page.isLoading
    ensures page.messages == [Message("msg_1", User, hello, 1), Message("msg_2", Assistant, "", 2)]
  {
    page := new ChatPage();
    page.inputValue := hello;
    assert Trim(page.inputValue) == hello && !page.isLoading && page.threadId == "";
    first := page.OnSendMessage("msg_1", 1, "msg_2", 2);
  }

  /** A first turn on a new page: the send carries no thread, and a reply
      that decodes to thread `id` and text `text` records the thread and
      fills the placeholder. */
  method FirstTurn(parse: string -> Option<Json>, body: string, id: string, text: string, hello: string)
    returns (page: ChatPage, first: Option<Json>)
    requires DecodeStream(parse, body) == Decoded(id, text)
    requires body != "" && id != "" && text != ""
    requires hello != "" && Trim(hello) == hello
    ensures fresh(page)
    ensures first == Some(BuildChatKitPayload("", hello))
    ensures page.threadId == id && !page.isLoading
    ensures |page.messages| == 2 && page.messages[1].content == text
  {
    page, first := SendFirst(hello);
    assert DecodeBody(parse, Str(body)) == Returned(Decoded(id, text));
    page.HandleApiResponse(parse, 200, Str(body));
  }

  /** Two turns. The first send has no thread, so it creates one; a reply
      that decodes to thread `id` and text `text` (such as the stream of
      `CreatedThenDoneStream`) records the thread and fills the
      placeholder; the second send is then added to thread `id`. */
  method TwoTurnConversation(parse: string -> Option<Json>, body: string, id: string, text: string,
                             hello: string, more: string)
    returns (first: Option<Json>, reply: string, second: Option<Json>)
    requires DecodeStream(parse, body) == Decoded(id, text)
    requires body != "" && id != "" && text != ""
    requires hello != "" && Trim(hello) == hello
    requires more != "" && Trim(more) == more
    ensures first.Some? && Get(first, "type") == Some(Str("threads.create"))
    ensures Get(Get(first, "params"), "thread_id").None?
    ensures reply == text
    ensures second.Some? && Get(second, "type") == Some(Str("threads.add_user_message"))
    ensures Get(Get(second, "params"), "thread_id") == Some(Str(id))
  {
    var page;
    page, first := FirstTurn(parse, body, id, text, hello);
    PayloadTargetsThread("", hello);
    reply := page.messages[1].content;
    page.inputValue := more;
    assert Trim(page.inputValue) == more && !page.isLoading && page.threadId == id;
    second := page.OnSendMessage("msg_3", 3, "msg_4", 4);
    assert second == Some(BuildChatKitPayload(id, more));
    PayloadTargetsThread(id, more);
  }

  /** `{"item":{"content":1}}` */
  function NonIterableItemContent(): Json {
    Obj(map["item" := Obj(map["content" := Num(1)])])
  }

  /** `for…of` over the number in `item.content` raises, and nothing in the
      object path catches it. */
  lemma NonIterableItemContentThrows(parse: string -> Option<Json>)
    ensures DecodeBody(parse, NonIterableItemContent()) == Threw
  {
    var c := Candidates(NonIterableItemContent());
    assert c[5] == Threw;
    FirstMatchPicks(c, 5);
  }

  /** An object reply whose decoding raises, such as
      `NonIterableItemContent()`, raises inside the success callback: the
      placeholder stays empty and the page stays in its loading state, so
      the next send is ignored. */
  method UncaughtTypeErrorKeepsLoading(parse: string -> Option<Json>, reply: Json, hello: string, again: string)
    returns (ignored: Option<Json>, placeholder: string, loading: bool)
    requires reply.Obj? && DecodeBody(parse, reply) == Threw
    requires hello != "" && Trim(hello) == hello
    ensures ignored == None && placeholder == "" && loading
  {
    var page, first := SendFirst(hello);
    page.HandleApiResponse(parse, 200, reply);
    assert |page.messages| == 2 && page.messages[1].content == "" && page.isLoading;
    placeholder := page.messages[1].content;
    page.inputValue := again;
    ignored := page.OnSendMessage("msg_3", 3, "msg_4", 4);
    loading := page.isLoading;
  }

  /** After a confirmed clear the next message creates a new thread, and the
      log holds only the new exchange. */
  method ClearedChatStartsNewThread(threadId: string, earlier: seq<Message>, more: string)
    returns (request: Option<Json>, log: seq<Message>)
    requires more != "" && Trim(more) == more
    ensures request.Some? && Get(request, "type") == Some(Str("threads.create"))
    ensures Get(Get(request, "params"), "thread_id").None?
    ensures log == [Message("msg_3", User, more, 3), Message("msg_4", Assistant, "", 4)]
  {
    var page := new ChatPage();
    page.threadId, page.messages := threadId, earlier;
    page.ClearChat(true);
    page.inputValue := more;
    assert Trim(page.inputValue) == more && !page.isLoading && page.threadId == "";
    request := page.OnSendMessage("msg_3", 3, "msg_4", 4);
    assert request == Some(BuildChatKitPayload("", more));
    PayloadTargetsThread("", more);
    log := page.messages;
  }
}

=== FILE: text.dfy ===
/** String operations the chat page takes from the JavaScript library:
    `split("\n")`, `trim()`, and the concatenation of a list of fragments. */
module Text {

  /** `s.split("\n")`: the pieces between line feeds. There is always at
      least one piece; a trailing line feed yields a trailing empty piece. */
  function SplitLines(s: string): (r: seq<string>)
    ensures |r| >= 1
    ensures forall i :: 0 <= i < |r| ==> '\n' !in r[i]
    ensures JoinLines(r) == s
  {
    if s == [] then [""]
    else
      var rest := SplitLines(s[1..]);
      if s[0] == '\n' then
        assert JoinLines([""] + rest) == "\n" + JoinLines(rest) by {
          assert ([""] + rest)[1..] == rest;
        }
        [""] + rest
      else
        var r := [[s[0]] + rest[0]] + rest[1..];
        assert r[1..] == rest[1..];
        assert JoinLines(r) == [s[0]] + JoinLines(rest);
        r
  }

  /** `lines.join("\n")`, the inverse of `SplitLines`. */
  function JoinLines(lines: seq<string>): string {
    if |lines| == 0 then ""
    else if |lines| == 1 then lines[0]
    else lines[0] + "\n" + JoinLines(lines[1..])
  }

  /** Splitting a line followed by a line feed and more text. */
  lemma {:induction false} SplitAfterLine(line: string, rest: string)
    requires '\n' !in line
    ensures SplitLines(line + "\n" + rest) == [line] + SplitLines(rest)
  {
    if line == [] {
      assert line + "\n" + rest == "\n" + rest;
      assert ("\n" + rest)[1..] == rest;
    } else {
      var s := line + "\n" + rest;
      assert s[0] == line[0] && s[1..] == line[1..] + "\n" + rest;
      SplitAfterLine(line[1..], rest);
      assert [line[0]] + line[1..] == line;
    }
  }

  /** A string without a line feed is a single piece. */
  lemma {:induction false} SplitSingleLine(line: string)
    requires '\n' !in line
    ensures SplitLines(line) == [line]
  {
    if line != [] {
      SplitSingleLine(line[1..]);
      assert [line[0]] + line[1..] == line;
    }
  }

  /** Joining pieces that hold no line feed and splitting again gives the
      same pieces back. */
  lemma {:induction false} SplitJoin(lines: seq<string>)
    requires |lines| >= 1
    requires forall i :: 0 <= i < |lines| ==> '\n' !in lines[i]
    ensures SplitLines(JoinLines(lines)) == lines
  {
    if |lines| == 1 {
      SplitSingleLine(lines[0]);
    } else {
      SplitJoin(lines[1..]);
      SplitAfterLine(lines[0], JoinLines(lines[1..]));
    }
  }

  /** The fragments of `parts` glued together in order. */
  function Concat(parts: seq<string>): string {
    if parts == [] then "" else parts[0] + Concat(parts[1..])
  }

  /** Adding a fragment at the end adds its text at the end. */
  lemma {:induction false} ConcatSnoc(parts: seq<string>, last: string)
    ensures Concat(parts + [last]) == Concat(parts) + last
  {
    if parts == [] {
      assert [] + [last] == [last];
    } else {
      assert (parts + [last])[1..] == parts[1..] + [last];
      ConcatSnoc(parts[1..], last);
    }
  }

  /** The characters `String.prototype.trim` removes: the ECMAScript
      WhiteSpace and LineTerminator code points. */
  predicate IsJsWhitespace(c: char) {
    var n := c as int;
    n == 0x09 || n == 0x0A || n == 0x0B || n == 0x0C || n == 0x0D || n == 0x20
    || n == 0xA0 || n == 0x1680 || (0x2000 <= n <= 0x200A) || n == 0x2028 || n == 0x2029
    || n == 0x202F || n == 0x205F || n == 0x3000 || n == 0xFEFF
  }

  /** `s` with its leading whitespace removed. */
  function TrimStart(s: string): string {
    if s != [] && IsJsWhitespace(s[0]) then TrimStart(s[1..]) else s
  }

  /** `s` with its trailing whitespace removed. */
  function TrimEnd(s: string): string {
    if s != [] && IsJsWhitespace(s[|s| - 1]) then TrimEnd(s[..|s| - 1]) else s
  }

  /** Removing leading whitespace leaves a suffix of `s` that does not start
      with whitespace, and everything removed was whitespace. */
  lemma {:induction false} TrimStartProperties(s: string)
    ensures |TrimStart(s)| <= |s| && TrimStart(s) == s[|s| - |TrimStart(s)|..]
    ensures forall i :: 0 <= i < |s| - |TrimStart(s)| ==> IsJsWhitespace(s[i])
    ensures TrimStart(s) != [] ==> !IsJsWhitespace(TrimStart(s)[0])
  {
    if s != [] && IsJsWhitespace(s[0]) {
      var tail := s[1..];
      TrimStartProperties(tail);
      assert TrimStart(s) == TrimStart(tail);
      assert tail[|tail| - |TrimStart(tail)|..] == s[|s| - |TrimStart(tail)|..];
      assert forall i :: 0 < i < |s| ==> s[i] == tail[i - 1];
    }
  }

  /** Removing trailing whitespace leaves a prefix of `s` that does not end
      with whitespace, and everything removed was whitespace. */
  lemma {:induction false} TrimEndProperties(s: string)
    ensures |TrimEnd(s)| <= |s| && TrimEnd(s) == s[..|TrimEnd(s)|]
    ensures forall i :: |TrimEnd(s)| <= i < |s| ==> IsJsWhitespace(s[i])
    ensures TrimEnd(s) != [] ==> !IsJsWhitespace(TrimEnd(s)[|TrimEnd(s)| - 1])
  {
    if s != [] && IsJsWhitespace(s[|s| - 1]) {
      var init := s[..|s| - 1];
      TrimEndProperties(init);
      assert TrimEnd(s) == TrimEnd(init);
      assert init[..|TrimEnd(init)|] == s[..|TrimEnd(init)|];
    }
  }

  /** `part` stands in `s` starting at index `k`. */
  predicate OccursAt(part: string, s: string, k: int) {
    0 <= k <= |s| - |part| && s[k..k + |part|] == part
  }

  /** `s.trim()`: `s` without its leading and trailing whitespace. */
  function Trim(s: string): string {
    TrimEnd(TrimStart(s))
  }

  /** The trimmed text is a contiguous part of `s` that neither starts nor
      ends with whitespace, and it is empty exactly when `s` is all
      whitespace. */
  lemma TrimProperties(s: string)
    ensures |Trim(s)| <= |s|
    ensures Trim(s) != [] ==> !IsJsWhitespace(Trim(s)[0]) && !IsJsWhitespace(Trim(s)[|Trim(s)| - 1])
    ensures Trim(s) == [] <==> forall i :: 0 <= i < |s| ==> IsJsWhitespace(s[i])
    ensures exists k :: OccursAt(Trim(s), s, k)
  {
    var t := TrimStart(s);
    var r := TrimEnd(t);
    TrimStartProperties(s);
    TrimEndProperties(t);
    // An all-whitespace remainder would start with whitespace, so it is empty.
    assert r == [] ==> t == [];
    assert r != [] ==> r[0] == t[0];
    assert OccursAt(r, s, |s| - |t|);
  }
}
